=== FILE: README.md ===
# Broadway instance store and chat commands, in Dafny

Broadway tracks deployment *instances*: environments created from a
playbook, identified by a playbook ID and an instance ID, carrying a status
and a map of variables, and stored as JSON in a hierarchical key-value store
under `/broadway/instances/<playbookID>/<id>`. Operators inspect and change
them over HTTP and through chat (`/broadway ...`) commands.

This project models the core of that system as pure Dafny functions over
immutable values, plus three small methods:

- the instance record of the `instance` package and its older twin in the
  `domain` package: the status constants, the path scheme, the JSON wrapper
  (`instances.dfy`, `domain.dfy`, `paths.dfy`);
- persistence: the store is a `map<string, string>` (`keyvalue.dfy`), the
  `repositories` package's `Save` (`repositories.dfy`), the repository of the
  `instance` package (`instance_repository.dfy`) and `InstanceService`
  (`instance_service.dfy`);
- the chat commands in their two revisions, `services/slack_command_handler.go`
  (`slack_command_handler.dfy`) and `services/slack.go` (`slack.dfy`), with
  what both share (`commands.dfy`), and the server's own command switch,
  deploy path, handshake probe and token gate (`server.dfy`);
- the two message formatters (`slack_notification.dfy`,
  `slack_deployment_notifier.dfy`).

Collaborators the model cannot see are parameters: the JSON encoder and
decoder (`Instances.Codec`, with the ghost predicate `Instances.Coherent`
stating the round trip `encoding/json` provides; it appears in the
preconditions of lemmas and of the method `InstanceService.CreateTwoThenList`,
and as a hypothesis in the contracts of `InstanceService.Create` and
`InstanceService.Update`), the store's write failure (`fault: Option<Error>`),
the deployment engine (`Server.Deployer`, an instance-to-error oracle) and
the playbook definitions (`Slack.Playbooks`, the declared variable names).
`Outcomes`, `Strings` (Go's `strings.Split` and `strings.SplitN(..., 2)`
for a one-character separator) and `KeyValue` are helpers.

Where the code and its tests disagree, the model follows the code:

- `var1=` and `=val1` are valid pairs (split on the first `=`, either side
  may be empty); services/slack_command_handler_test.go expects a syntax error.
- `setvar` never adds a variable: a key the instance does not already have
  is refused. TestSetvar expects `pins=10` to be added to an instance with no
  variables.
- `StatusError` is the string `"not deployed"`, so a notification for it
  ends in `not deployed`; services/slack_notification_test.go expects `error`.
- In the `services/slack.go` revision the playbook check asks whether *any*
  declared variable is already set on the instance, not whether the key being
  set is declared (`Slack.UndeclaredKeyAccepted`).
- The server's `doCommand` has no `setvar` case: it answers 501.

The repository of the `instance` package (`Save`, `FindByPath`, `FindByID`,
`FindByPlaybookID`) is modelled from its callers in services/instance.go
and from instance/instance_test.go and broadway/repository_test.go, under
these assumptions:

- an absent key (the store answers `""`) is `NotFound` carrying the path,
  and an undecodable value is `MalformedSaveData`, as the tests expect;
- its `Save` is the one of repositories/instance.go:23-33: encode, then
  write at the record's `Path()`;
- a playbook listing stops at the first undecodable record and returns the
  instances decoded before it together with the error. No test shows this:
  no listing test has an undecodable record;
- the root of every path is fixed to `/broadway`, as instance/instance.go:40
  writes it; the tests build paths from a configurable root
  (instance/instance_test.go:21,80), which is not modelled.

A playbook's instances are the keys under `/broadway/instances/<playbookID>/`.

## Model

| member | source | states |
|---|---|---|
| Outcomes.ErrorText | services/slack_command_handler.go:27-29 | the `Error()` texts: NotFound is the fixed prefix, the path and the fixed suffix; InvalidSetVar is the syntax hint; a collaborator's error text is passed through |
| Outcomes.NotFoundTextDistinct | broadway/repository_test.go:40-58 | a NotFound message names its path (two agree only for equal paths) and never reads like the malformed-data message |
| Strings.Split | services/slack_command_handler.go:82 | `strings.Split` on one character: at least one piece, none holding the separator; with `Join` it round-trips (`Strings.JoinSplit`, `Strings.SplitJoin`) |
| Strings.Join | services/slack_command_handler.go:82 | the text a list of words is typed as, inverse of the split on that line: starts with the first piece, followed by the separator when more pieces follow |
| Strings.SplitOnFirst | services/slack_command_handler.go:48-52 | `SplitN(s, "=", 2)` with the length-2 test: no result exactly when the separator is absent; otherwise a separator-free first part that, rejoined with the rest, gives the input |
| Strings.SplitJoin | server/server.go:221 | splitting on single spaces recovers any non-empty list of space-free tokens joined by spaces |
| Strings.JoinSplit | services/slack.go:105 | joining the pieces of a split gives the original text back |
| Paths.ParseKeyRoundTrip | instance/instance.go:39-41 | for a `/`-free playbook ID the key reads back to exactly the identifiers it was built from |
| Paths.ParseInstanceKey | instance/instance.go:40 | any key that parses is the key of the identifiers it parses to, with a `/`-free playbook ID |
| Paths.KeyInjective | instance/instance.go:40 | with `/`-free playbook IDs, two keys are equal iff both identifiers are |
| Paths.KeyCollidesWithSlash | instance/instance.go:40 | without that restriction distinct pairs collide, as nothing is escaped |
| Paths.DirOwnsKey | instance/instance.go:40 | a key in a `/`-free playbook's directory parses to that playbook |
| Paths.OtherPlaybookNotInDir | instance/instance.go:40 | no key of another `/`-free playbook lies in a playbook's directory |
| Instances.StatusTextInjective | instance/instance.go:16-27 | the five status strings are pairwise distinct and read back to their constants; `""` is StatusNew |
| Instances.ParseStatus | instance/instance.go:14-27 | reading a status string gives the constant with that text, and nothing for any other text |
| Instances.Zero | instance/instance.go:18 | the zero-valued record has empty identifiers, no variables and the empty status, StatusNew |
| Instances.Path | instance/instance.go:39-41 | the path lies in the playbook's directory, ends in the ID, and, for a `/`-free playbook ID, reads back to both identifiers |
| Instances.PathFormat | instance/instance.go:39-41 | the path is exactly `"/broadway/instances/" + PlaybookID + "/" + ID` |
| Instances.PathInjective | instance/instance.go:40 | two records with `/`-free playbook IDs share a path iff they share both identifiers |
| Instances.PathIgnoresPayload | instance/instance.go:39-41 | changing the variables, creation time or status leaves the path unchanged |
| Instances.JSON | instance/instance.go:29-36 | no error exactly when the encoder succeeds, and then the text is the encoder's output; on failure the text is empty and the encoder's error is returned |
| Instances.JSONRoundTrip | instance/instance.go:29-36 | a successful encoding is non-empty and decodes to the record |
| Domain.Path | domain/instance.go:19-21 | the path lies in the playbook's directory, ends in the ID, and, for a `/`-free playbook ID, reads back to both identifiers |
| Domain.PathFormat | domain/instance.go:19-21 | the path is exactly `"/broadway/instances/" + PlaybookID + "/" + ID` |
| Domain.PathInjective | domain/instance.go:20 | `/`-free playbook IDs: equal paths iff equal identifier pairs |
| Domain.PathIgnoresVars | domain/instance.go:19-21 | the path does not depend on the variables |
| Domain.JSON | domain/instance.go:11-17 | the encoding with no error, or the empty string with the encoder's error |
| KeyValue.Value | instance/instance_test.go:41-50 | a missing key reads as the empty string |
| KeyValue.SetValue | repositories/instance.go:28 | a failed write changes nothing and returns the store's error; a successful one sets exactly the key and keeps every other entry |
| Repositories.Save | repositories/instance.go:23-33 | an encoding error is returned with nothing written; a write error is returned unchanged; on success exactly the record's path holds the encoding, every other key is kept, and the result is nil |
| Repositories.SaveOverwrites | repositories/instance.go:23-33 | no read precedes the write: stores that differ only at the record's path are identical after a successful save |
| InstanceRepository.Save | services/instance.go:19-23 | the instance package's save: same outcomes as above for the newer record |
| InstanceRepository.FindByPath | instance/instance_test.go:11-61 | an empty or absent value is NotFound carrying the path; a present undecodable one is MalformedSaveData; a present decodable one gives `Success` of the decoded record, whoever wrote it |
| InstanceRepository.FindByID | services/instance.go:38-44 | looks up the key built from the two identifiers; a key never written is NotFound; a present decodable record is returned |
| InstanceRepository.SaveThenFind | broadway/repository_test.go:28-68 | a saved record reads back unchanged by path and by identifiers |
| InstanceRepository.FindByPlaybookID | instance/instance_test.go:63-91 | no error iff every record under the playbook decodes; then one result per key, every record included; on a bad record MalformedSaveData with a strictly partial result; every result decodes from a key under the playbook |
| InstanceRepository.SaveListing | broadway/repository_test.go:70-86 | a save adds its path to its own playbook's listing and to no other `/`-free playbook's |
| InstanceService.Create | services/instance.go:19-29 | a failed save is returned with the store unchanged and no read; a successful save writes only the record's path and, with a round-tripping encoder, returns the record |
| InstanceService.Update | services/instance.go:31-34 | identical to Create in effect and result |
| InstanceService.Show | services/instance.go:36-44 | a never-written key is NotFound with the exact path; a present undecodable record is MalformedSaveData; a present decodable record is returned, and only such a record |
| InstanceService.CreateThenShow | server/server_test.go:87-90 | creating then showing by the same identifiers gives the instance back |
| InstanceService.AllWithPlaybookID | services/instance.go:46-49 | the listing of the playbook: empty playbook gives an empty result and no error; no error iff every record decodes, and then one result per key, all of them listed; on error MalformedSaveData with strictly fewer results than keys; every result decodes from a key under the playbook |
| InstanceService.TwoCreatesListing | server/server_test.go:201-245 | after two creates under an empty playbook its listing is exactly the two distinct paths, each decoding to its instance |
| InstanceService.CreateTwoThenList | server/server_test.go:201-245 | listing after two creates returns both instances and no error |
| Commands.ParsePair | services/slack_command_handler.go:48-52 | a token without `=` is refused; otherwise an `=`-free key and the rest, which rejoin to the token |
| Commands.ParsePairExamples | services/slack_command_handler.go:48-52 | `a=b=c` sets `a` to `b=c`; `var1=` and `=val1` parse; `var1` does not |
| Commands.AssignPairs | services/slack_command_handler.go:47-63 | all pairs are applied iff every token parses and names an existing key; the keys never change |
| Commands.FirstBadToken | services/slack_command_handler.go:47-62 | the first token that is not an assignable pair decides the failure, whatever follows: Malformed when it has no `=`, UndefinedKey when its key is undefined |
| Commands.AssignPairsValues | services/slack_command_handler.go:53-57 | after success each variable holds the value of the last pair naming it, or its old value |
| Commands.AssignPairsExample | services/slack_command_handler.go:53-57 | `var1=val1` on `{var1: val2}` gives `{var1: val1}` |
| Commands.AssignPairsUndefinedExample | services/slack_command_handler.go:58-62 | `newvar=val1` on `{var1: val2}` is refused as undefined |
| SlackCommandHandler.BuildSlackCommand | services/slack_command_handler.go:80-89 | setvar exactly when the first space-separated token is `setvar`, carrying all tokens; otherwise help |
| SlackCommandHandler.BuildFromTokens | services/slack_command_handler.go:81-85 | space-free tokens starting with `setvar` build a setvar command holding those tokens |
| SlackCommandHandler.BuildEmptyIsHelp | services/slack_command_handler.go:82-87 | the empty text builds help |
| SlackCommandHandler.ExecuteSetvar | services/slack_command_handler.go:36-70 | fewer than 4 tokens is InvalidSetVar with an empty message before any lookup; a failed lookup is returned as is; the store changes only if every pair applied; only a refusal (InvalidSetVar, nothing written) carries a message with its error, so an update error comes with an empty one; a failed write of the updated record (encoder or store error) returns that error unchanged with an empty message and nothing written; success carries the updated message |
| SlackCommandHandler.SetvarRefusal | services/slack_command_handler.go:47-62 | any bad token refuses the command with InvalidSetVar and no write; an undefined key draws the does-not-define message, a token without `=` an empty one |
| SlackCommandHandler.SetvarFirstBadToken | services/slack_command_handler.go:47-62 | the exact reply when token m is the first bad one: InvalidSetVar, nothing written, and the empty message if it lacks `=` or the does-not-define message if its key is undefined |
| SlackCommandHandler.SetvarSuccess | services/slack_command_handler.go:47-69 | with all pairs defined and the write accepted: no error, the updated message, the saved instance reads back with each variable at its last given value and no key added; the store differs from the old one only at the instance's path, which holds the new encoding |
| SlackCommandHandler.Execute | services/slack_command_handler.go:72-78 | help answers with the fixed hint and no error and changes nothing; only setvar can write |
| Slack.BuildSlackCommand | services/slack.go:103-112 | setvar exactly when the first token is `setvar`, carrying all tokens and the playbooks; otherwise help |
| Slack.BuildAgreesWithHandler | services/slack.go:104-112 | both revisions build the same kind of command, with the same tokens, from the same text |
| Slack.AnyDefined | services/slack.go:82-87 | true iff some declared name is a variable of the instance |
| Slack.PlaybookContainsVars | services/slack.go:80-90 | true iff the playbook is known and one of its declared names is already a variable |
| Slack.AssignChecked | services/slack.go:50-71 | the checked pair loop never changes the set of keys |
| Slack.CheckedAgrees | services/slack.go:56-60 | when the playbook check passes it keeps passing, and the loop equals the unchecked one |
| Slack.CheckedRefuses | services/slack.go:56-69 | when the check fails no pair is applied: a first token without `=` is malformed, otherwise the playbook refusal |
| Slack.UndeclaredKeyAccepted | services/slack.go:80-90 | a key the playbook does not declare is still accepted when another declared name is set |
| Slack.ExecuteSetvar | services/slack.go:39-78 | fewer than 4 tokens is InvalidSetVar before lookup; a failed lookup is returned as is; the store changes only if the playbook check passed; only a refusal (InvalidSetVar, nothing written) carries a message with its error; a failed write of the updated record returns that error unchanged with an empty message and nothing written |
| Slack.AgreesWithHandler | services/slack.go:39-78 | with the playbook check passing, this revision's setvar equals the other revision's |
| Slack.PlaybookRefusal | services/slack.go:50-69 | with the check failing, the first token decides: without `=` an empty message, otherwise the playbook message; InvalidSetVar and nothing persisted either way |
| Slack.Execute | services/slack.go:93-101 | help answers with the hint constant and no error and changes nothing |
| Server.DoDeploy | server/server.go:244-257 | a failed lookup is returned without consulting the engine; otherwise the engine's error unchanged, or the instance when it reports none |
| Server.DeployerUnusedOnMissing | server/server.go:244-250 | when the lookup fails the deployer plays no part |
| Server.DoCommand | server/server.go:220-242 | codes 200, 500 or 501 with an error exactly on 500; `help` and a short `deploy` give the hint; any other first token gives 501 |
| Server.EmptyTextUnimplemented | server/server.go:221-240 | the empty text is one empty token and answers 501 |
| Server.SetvarUnimplemented | server/server.go:239-240 | `setvar ...` answers 501 |
| Server.DeployCommand | server/server.go:228-238 | for any three or more space-free tokens `deploy p i ...`, deploys `p`/`i` and ignores the rest: 500 "Deployment failed" with the error, or 200 "Instance p/i deployed" |
| Server.DeployThreeTokens | server/server.go:228-238 | the text `deploy p i` answers 500 "Deployment failed" with the error, or 200 "Instance p/i deployed" |
| Server.GetCommand | server/server.go:171-179 | 200 with an empty body iff `ssl_check` is `1`, else 400 "Use POST /command" |
| Server.PostCommand | server/server.go:195-216 | a token other than the configured one is 401; otherwise the command's code, its message on success, the internal-error body on error |
| Server.WrongTokenIgnoresCommand | server/server.go:203-207 | with a refused token the text, store and deployer make no difference |
| SlackNotification.NewSlackNotification | services/slack_notification.go:28-30 | keeps the instance and owner unchanged |
| SlackNotification.String | services/slack_notification.go:15-22 | owner, `: `, playbook ID, `-`, ID and a space, then the raw status text, nothing more |
| SlackNotification.StringIgnoresPayload | services/slack_notification.go:15-22 | the line does not depend on variables or creation time |
| SlackNotification.DeployedExample | services/slack_notification_test.go:18-22 | Steve's deployed `mine`/`pr001` renders `Steve: mine-pr001 deployed` |
| SlackNotification.ErrorExample | services/slack_notification.go:15-22 | the error status renders as `not deployed` |
| SlackNotification.NewEndsInSpace | services/slack_notification.go:15-22 | a new instance's line ends in a space |
| SlackDeploymentNotifier.InstanceInfoFromCommand | services/slack_deployment_notifier.go:24-27 | returns two space-free tokens of the command field |
| SlackDeploymentNotifier.InstanceInfoFromTokens | services/slack_deployment_notifier.go:24-27 | for a command of four or more space-free tokens, returns the third and fourth |
| SlackDeploymentNotifier.Notify | services/slack_deployment_notifier.go:41-46 | never an error; `<playbook> <instance> `, then the user name, then ` was deployed`, nothing more |
| SlackDeploymentNotifier.NotifyIgnoresText | services/slack_deployment_notifier.go:41-46 | the message does not read the text or token fields |

## Left out

- HTTP plumbing of server/server.go: routing, form and JSON binding (the 500 on a form that does not bind), `createInstance`, `getInstance`, `getInstances`, `getStatus`, `deployInstance` and their status mapping, `Init`'s folder loading.
- The byte-level JSON format: encoding and decoding are parameters; their round trip is the precondition `Instances.Coherent`.
- Instances.Coherent: Go strings are bytes and `encoding/json` replaces invalid UTF-8 with U+FFFD, so in Go a variable holding invalid UTF-8 does not survive the round trip; the predicate is consistent here only because Dafny strings are sequences of Unicode scalar values.
- The deployment engine and playbook/manifest loading: the engine is an oracle returning an error or none, and its own writes to the store (status transitions) are not modelled; a playbook is reduced to its declared variable names.
- The `deployCommand` stubs of both chat-command files: they return a fixed error and do not satisfy the command interface.
- `FindByPath` of repositories/instance.go, which is ill-typed; context/instance.go, which discards `Save`'s error; store/mock.go, a test double; main.go and config/config.go.
- Logging (`glog`, `log`) calls: they have no effect on results.
- Concurrent `setvar` races: the write overwrites unconditionally (the frame clauses of `InstanceRepository.Save`: every other key keeps its value and the record's key gets the new text whatever it held), which is all the race needs.
- Instances.ParseStatus: a Go `Status` may hold any string; the model keeps the five named constants only.
- KeyValue.SetValue: a failed store write is taken to leave the store unchanged.
- SlackDeploymentNotifier.InstanceInfoFromCommand: fewer than four tokens makes Go index out of range; the model makes four tokens a precondition instead of modelling the panic.
- InstanceService.Show: on error Go also returns whatever instance value the repository gave; the model returns the error only.
- The in-memory mutation of the looked-up instance by a `setvar` that then fails: that instance is a fresh decoded copy, so nothing observable changes.

=== FILE: commands.dfy ===
/** What the two revisions of the chat-command handler share: the usage
    hint, the reply messages, the `key=value` pair syntax, and the loop that
    applies the pairs to an instance's variables. */
module Commands {
  import opened Outcomes
  import opened KeyValue
  import Strings

  const CommandHints := "/broadway help: This message\n/broadway deploy myPlaybookID myInstanceID: Deploy a new instance"

  function UpdatedMessage(playbookID: string, id: string): string
  {
    "Instance " + playbookID + " " + id + " updated it's variables"
  }

  function InstanceLacksMessage(playbookID: string, id: string): string
  {
    "Instance " + playbookID + " " + id + " does not define those variables"
  }

  function PlaybookLacksMessage(playbookID: string): string
  {
    "Playbook " + playbookID + " does not define those variables"
  }

  /** What a command's `Execute` returns, with the store it leaves behind. */
  datatype Executed = Executed(message: string, err: Option<Error>, data: Store)

  /** One `key=value` token, split on its first `=`; either side may be empty. */
  function ParsePair(kv: string): (r: Option<(string, string)>)
    ensures r.None? <==> '=' !in kv
    ensures r.Some? ==> '=' !in r.value.0 && r.value.0 + "=" + r.value.1 == kv
  {
    Strings.SplitOnFirst(kv, '=')
  }

  lemma ParsePairExamples()
    ensures ParsePair("a=b=c") == Some(("a", "b=c"))
    ensures ParsePair("var1=") == Some(("var1", ""))
    ensures ParsePair("=val1") == Some(("", "val1"))
    ensures ParsePair("var1") == None
  {
    Strings.SplitOnFirstJoin("a", '=', "b=c");
    assert "a" + ['='] + "b=c" == "a=b=c";
    Strings.SplitOnFirstJoin("var1", '=', "");
    assert "var1" + ['='] + "" == "var1=";
    Strings.SplitOnFirstJoin("", '=', "val1");
    assert "" + ['='] + "val1" == "=val1";
  }

  /** A token that is a pair whose key the variables already define. */
  predicate Assignable(vars: map<string, string>, kv: string)
  {
    ParsePair(kv).Some? && ParsePair(kv).value.0 in vars
  }

  /** How applying the pairs ended: the new variables, or the first failure. */
  datatype Assignment =
    | Assigned(vars: map<string, string>)
    | Malformed           // a token without `=`
    | UndefinedKey        // a key the instance does not define
    | PlaybookLacksVars   // the playbook check failed (one revision only)

  /** The pair loop without a playbook check: tokens are taken left to right,
      the first token without `=` or with an undefined key stops the loop,
      and otherwise each pair overwrites its key. */
  function AssignPairs(vars: map<string, string>, kvs: seq<string>): (r: Assignment)
    ensures !r.PlaybookLacksVars?
    ensures r.Assigned? <==> forall j :: 0 <= j < |kvs| ==> Assignable(vars, kvs[j])
    ensures r.Assigned? ==> r.vars.Keys == vars.Keys
    decreases |kvs|
  {
    if |kvs| == 0 then Assigned(vars)
    else match ParsePair(kvs[0])
      case None => Malformed
      case Some((k, v)) =>
        if k !in vars then UndefinedKey
        else
          var rest := AssignPairs(vars[k := v], kvs[1..]);
          assert forall j :: 0 <= j < |kvs[1..]| ==> (Assignable(vars[k := v], kvs[1..][j]) <==> Assignable(vars, kvs[j + 1]));
          rest
  }

  /** The first token that is not an assignable pair decides the failure: a
      token without `=` is Malformed, a pair with an undefined key is
      UndefinedKey, whatever follows it. */
  lemma {:induction false} FirstBadToken(vars: map<string, string>, kvs: seq<string>, m: int)
    requires 0 <= m < |kvs|
    requires forall j :: 0 <= j < m ==> Assignable(vars, kvs[j])
    requires !Assignable(vars, kvs[m])
    ensures AssignPairs(vars, kvs) == (if ParsePair(kvs[m]).None? then Malformed else UndefinedKey)
    decreases m
  {
    if m > 0 {
      var (k, v) := ParsePair(kvs[0]).value;
      assert vars[k := v].Keys == vars.Keys;
      assert forall j :: 0 <= j < m - 1 ==> kvs[1..][j] == kvs[j + 1];
      FirstBadToken(vars[k := v], kvs[1..], m - 1);
    }
  }

  /** Reference reading of the pair list, right to left: the value of the last
      pair naming `key`, or `otherwise` when no pair names it. */
  function LastValue(kvs: seq<string>, key: string, otherwise: string): string
    decreases |kvs|
  {
    if |kvs| == 0 then otherwise
    else
      var last := ParsePair(kvs[|kvs| - 1]);
      if last.Some? && last.value.0 == key then last.value.1
      else LastValue(kvs[..|kvs| - 1], key, otherwise)
  }

  /** Peeling the first pair off: it only sets the fallback value. */
  lemma {:induction false} LastValueFirst(kvs: seq<string>, key: string, otherwise: string)
    requires |kvs| > 0
    ensures LastValue(kvs, key, otherwise) ==
      LastValue(kvs[1..], key,
        if ParsePair(kvs[0]).Some? && ParsePair(kvs[0]).value.0 == key then ParsePair(kvs[0]).value.1 else otherwise)
    decreases |kvs|
  {
    if |kvs| > 1 {
      var last := ParsePair(kvs[|kvs| - 1]);
      if !(last.Some? && last.value.0 == key) {
        LastValueFirst(kvs[..|kvs| - 1], key, otherwise);
        assert kvs[..|kvs| - 1][1..] == kvs[1..][..|kvs[1..]| - 1];
      }
    }
  }

  /** On success each variable holds the value of the last pair naming it, or
      its old value when no pair names it: later duplicates win. */
  lemma {:induction false} AssignPairsValues(vars: map<string, string>, kvs: seq<string>)
    requires AssignPairs(vars, kvs).Assigned?
    ensures forall k :: k in vars ==> AssignPairs(vars, kvs).vars[k] == LastValue(kvs, k, vars[k])
    decreases |kvs|
  {
    if |kvs| > 0 {
      var (k0, v0) := ParsePair(kvs[0]).value;
      AssignPairsValues(vars[k0 := v0], kvs[1..]);
      forall k | k in vars
        ensures AssignPairs(vars, kvs).vars[k] == LastValue(kvs, k, vars[k])
      {
        LastValueFirst(kvs, k, vars[k]);
      }
    }
  }

  /** The documented example: a defined key is overwritten. */
  lemma AssignPairsExample()
    ensures AssignPairs(map["var1" := "val2"], ["var1=val1"]) == Assigned(map["var1" := "val1"])
  {
    Strings.SplitOnFirstJoin("var1", '=', "val1");
    assert "var1" + ['='] + "val1" == "var1=val1";
    assert ParsePair("var1=val1") == Some(("var1", "val1"));
    var kvs := ["var1=val1"];
    assert kvs[0] == "var1=val1" && kvs[1..] == [];
  }

  /** A key the instance does not define is refused. */
  lemma AssignPairsUndefinedExample()
    ensures AssignPairs(map["var1" := "val2"], ["newvar=val1"]) == UndefinedKey
  {
    Strings.SplitOnFirstJoin("newvar", '=', "val1");
    assert "newvar" + ['='] + "val1" == "newvar=val1";
    assert ParsePair("newvar=val1") == Some(("newvar", "val1"));
    var kvs := ["newvar=val1"];
    assert kvs[0] == "newvar=val1";
  }
}

=== FILE: domain.dfy ===
/** The older instance record of the `domain` package: identifiers and
    variables, no status and no creation time. */
module Domain {
  import opened Outcomes
  import Strings
  import Paths

  datatype Instance = Instance(playbookID: string, id: string, vars: map<string, string>)

  function Path(i: Instance): (p: string)
    ensures Strings.HasPrefix(p, Paths.PlaybookDir(i.playbookID))
    ensures p[|Paths.PlaybookDir(i.playbookID)|..] == i.id
    ensures '/' !in i.playbookID ==> Paths.ParseInstanceKey(p) == Some((i.playbookID, i.id))
  {
    Paths.KeyInPlaybookDir(i.playbookID, i.id);
    if '/' in i.playbookID then Paths.InstanceKey(i.playbookID, i.id)
    else
      Paths.ParseKeyRoundTrip(i.playbookID, i.id);
      Paths.InstanceKey(i.playbookID, i.id)
  }

  lemma PathFormat(i: Instance)
    ensures Path(i) == "/broadway/instances/" + i.playbookID + "/" + i.id
  {
  }

  lemma PathInjective(i: Instance, j: Instance)
    requires '/' !in i.playbookID && '/' !in j.playbookID
    ensures Path(i) == Path(j) <==> i.playbookID == j.playbookID && i.id == j.id
  {
    Paths.KeyInjective(i.playbookID, i.id, j.playbookID, j.id);
  }

  lemma PathIgnoresVars(i: Instance, vars: map<string, string>)
    ensures Path(i.(vars := vars)) == Path(i)
  {
  }

  /** `Instance.JSON` over an abstract encoder. */
  function JSON(i: Instance, marshal: Instance -> Marshalled): (r: (string, Option<Error>))
    ensures r.1.None? <==> marshal(i).Marshalled?
    ensures r.1.None? ==> r.0 == marshal(i).text
    ensures r.1.Some? ==> r.0 == "" && r.1.value == marshal(i).err
  {
    match marshal(i)
    case MarshalFailed(e) => ("", Some(e))
    case Marshalled(t) => (t, None)
  }
}

=== FILE: instance_repository.dfy ===
/** The repository of the `instance` package, which the instance service
    delegates to, modelled from its callers and its tests: a missing key
    reads as NotFound carrying the path, an undecodable value as
    MalformedSaveData, and (an assumption no test pins down) a playbook
    listing returns the instances decoded so far when it meets a bad
    record. */
module InstanceRepository {
  import opened Outcomes
  import opened KeyValue
  import opened Instances
  import Strings
  import Paths

  /** Encode, then write at the record's path. */
  function Save(data: Store, i: Instance, codec: Codec, fault: Option<Error>): (w: Written)
    ensures codec.marshal(i).MarshalFailed? ==> w.err == Some(codec.marshal(i).err) && w.data == data
    ensures codec.marshal(i).Marshalled? ==> w.err == fault
    ensures fault.Some? ==> w.data == data
    ensures codec.marshal(i).Marshalled? && fault.None? ==>
      Value(w.data, Path(i)) == codec.marshal(i).text
      && w.data.Keys == data.Keys + {Path(i)}
      && forall k :: k in data && k != Path(i) ==> w.data[k] == data[k]
  {
    var (encoded, err) := JSON(i, codec);
    if err.Some? then Written(data, err)
    else SetValue(data, Path(i), encoded, fault)
  }

  function FindByPath(data: Store, path: string, codec: Codec): (r: Result<Instance>)
    ensures Value(data, path) == "" <==> r == Failure(NotFound(path))
    ensures r == Failure(MalformedSaveData) <==>
      Value(data, path) != "" && codec.unmarshal(Value(data, path)).None?
    ensures r.Success? ==> codec.unmarshal(Value(data, path)) == Some(r.value)
    // a present record that decodes is returned, whoever wrote it
    ensures Value(data, path) != "" && codec.unmarshal(Value(data, path)).Some? ==>
      r == Success(codec.unmarshal(Value(data, path)).value)
  {
    var raw := Value(data, path);
    if raw == "" then Failure(NotFound(path))
    else match codec.unmarshal(raw)
      case None => Failure(MalformedSaveData)
      case Some(i) => Success(i)
  }

  function FindByID(data: Store, playbookID: string, id: string, codec: Codec): (r: Result<Instance>)
    ensures Paths.InstanceKey(playbookID, id) !in data ==> r == Failure(NotFound(Paths.InstanceKey(playbookID, id)))
    ensures r.Success? ==> codec.unmarshal(Value(data, Paths.InstanceKey(playbookID, id))) == Some(r.value)
    ensures Value(data, Paths.InstanceKey(playbookID, id)) != ""
            && codec.unmarshal(Value(data, Paths.InstanceKey(playbookID, id))).Some? ==>
      r == Success(codec.unmarshal(Value(data, Paths.InstanceKey(playbookID, id))).value)
  {
    FindByPath(data, Paths.InstanceKey(playbookID, id), codec)
  }

  /** A saved record reads back unchanged at its path. */
  lemma SaveThenFind(data: Store, i: Instance, codec: Codec)
    requires Coherent(codec)
    requires codec.marshal(i).Marshalled?
    ensures FindByPath(Save(data, i, codec, None).data, Path(i), codec) == Success(i)
    ensures FindByID(Save(data, i, codec, None).data, i.playbookID, i.id, codec) == Success(i)
  {
  }

  /** The keys listed for one playbook: those in its directory. */
  function KeysUnder(data: Store, playbookID: string): (keys: set<string>)
    ensures forall k :: k in keys <==> k in data && Strings.HasPrefix(k, Paths.PlaybookDir(playbookID))
  {
    set k | k in data && Strings.HasPrefix(k, Paths.PlaybookDir(playbookID))
  }

  /** The record stored at `k` decodes. */
  ghost predicate Decodes(data: Store, k: string, codec: Codec)
  {
    k in data && codec.unmarshal(data[k]).Some?
  }

  /** Lists one playbook's instances, visiting its keys in the store's
      (unspecified) order. The first undecodable record stops the walk with
      MalformedSaveData, and the instances decoded before it are returned
      with the error. */
  method FindByPlaybookID(data: Store, playbookID: string, codec: Codec)
    returns (found: seq<Instance>, err: Option<Error>)
    ensures err.None? || err == Some(MalformedSaveData)
    ensures err.None? <==> forall k :: k in KeysUnder(data, playbookID) ==> Decodes(data, k, codec)
    ensures err.None? ==> |found| == |KeysUnder(data, playbookID)|
    ensures err.Some? ==> |found| < |KeysUnder(data, playbookID)|
    ensures err.None? ==> forall k :: k in KeysUnder(data, playbookID) ==>
      Decodes(data, k, codec) && codec.unmarshal(data[k]).value in found
    ensures forall x :: x in found ==>
      exists k :: k in KeysUnder(data, playbookID) && codec.unmarshal(data[k]) == Some(x)
  {
    var all := KeysUnder(data, playbookID);
    var remaining := all;
    ghost var visited: set<string> := {};
    found := [];
    while remaining != {}
      invariant remaining <= all && visited == all - remaining
      invariant |found| == |visited|
      invariant forall k :: k in visited ==> Decodes(data, k, codec) && codec.unmarshal(data[k]).value in found
      invariant forall x :: x in found ==> exists k :: k in visited && codec.unmarshal(data[k]) == Some(x)
      decreases remaining
    {
      var k :| k in remaining;
      match codec.unmarshal(data[k]) {
        case None =>
          assert !Decodes(data, k, codec);
          assert visited < all by {
            assert k in all && k !in visited;
          }
          SubsetSmaller(visited, all);
          return found, Some(MalformedSaveData);
        case Some(x) =>
          found := found + [x];
      }
      remaining := remaining - {k};
      visited := visited + {k};
    }
    err := None;
  }

  lemma SubsetSmaller(a: set<string>, b: set<string>)
    requires a < b
    ensures |a| < |b|
  {
    var x :| x in b && x !in a;
    var rest := b - {x} - a;
    assert b == a + rest + {x};
    assert |a + rest| == |a| + |rest|;
  }

  /** Saving adds the record's key to its own playbook's listing and to no
      other `/`-free playbook's listing. */
  lemma SaveListing(data: Store, i: Instance, codec: Codec, playbookID: string)
    requires codec.marshal(i).Marshalled?
    requires '/' !in i.playbookID && '/' !in playbookID
    ensures playbookID == i.playbookID ==>
      KeysUnder(Save(data, i, codec, None).data, playbookID) == KeysUnder(data, playbookID) + {Path(i)}
    ensures playbookID != i.playbookID ==>
      KeysUnder(Save(data, i, codec, None).data, playbookID) == KeysUnder(data, playbookID)
  {
    Paths.KeyInPlaybookDir(i.playbookID, i.id);
    if playbookID != i.playbookID {
      Paths.OtherPlaybookNotInDir(playbookID, i.playbookID, i.id);
    }
  }
}

=== FILE: instance_service.dfy ===
/** `InstanceService`: create, update, show and list instances through the
    instance repository. */
module InstanceService {
  import opened Outcomes
  import opened KeyValue
  import opened Instances
  import Repo = InstanceRepository
  import Paths

  /** The store after an operation, and the operation's result. */
  datatype Saved = Saved(data: Store, result: Result<Instance>)

  /** Save, then read the record back at its path. A failed save is returned
      at once, with nothing written and nothing read. */
  function Create(data: Store, i: Instance, codec: Codec, fault: Option<Error>): (r: Saved)
    ensures codec.marshal(i).MarshalFailed? ==> r == Saved(data, Failure(codec.marshal(i).err))
    ensures codec.marshal(i).Marshalled? && fault.Some? ==> r == Saved(data, Failure(fault.value))
    ensures r.result.Success? ==> codec.marshal(i).Marshalled? && fault.None?
    ensures codec.marshal(i).Marshalled? && fault.None? ==>
      r.data.Keys == data.Keys + {Path(i)} && r.data[Path(i)] == codec.marshal(i).text
      && forall k :: k in data && k != Path(i) ==> r.data[k] == data[k]
    ensures Coherent(codec) && codec.marshal(i).Marshalled? && fault.None? ==> r.result == Success(i)
  {
    var w := Repo.Save(data, i, codec, fault);
    if w.err.Some? then Saved(w.data, Failure(w.err.value))
    else Saved(w.data, Repo.FindByPath(w.data, Path(i), codec))
  }

  /** Update is Create: an unconditional overwrite followed by a read-back. */
  function Update(data: Store, i: Instance, codec: Codec, fault: Option<Error>): (r: Saved)
    ensures r == Create(data, i, codec, fault)
    ensures Coherent(codec) && codec.marshal(i).Marshalled? && fault.None? ==> r.result == Success(i)
    ensures r.result.Failure? && (codec.marshal(i).MarshalFailed? || fault.Some?) ==> r.data == data
  {
    Create(data, i, codec, fault)
  }

  function Show(data: Store, playbookID: string, id: string, codec: Codec): (r: Result<Instance>)
    // a key never written is NotFound, carrying the exact path
    ensures Paths.InstanceKey(playbookID, id) !in data ==>
      r == Failure(NotFound("/broadway/instances/" + playbookID + "/" + id))
    // a present but undecodable record is MalformedSaveData, not NotFound
    ensures (Value(data, Paths.InstanceKey(playbookID, id)) != ""
             && codec.unmarshal(Value(data, Paths.InstanceKey(playbookID, id))).None?)
            ==> r == Failure(MalformedSaveData)
    ensures r.Success? ==> codec.unmarshal(data[Paths.InstanceKey(playbookID, id)]) == Some(r.value)
    // a present record that decodes is returned
    ensures Value(data, Paths.InstanceKey(playbookID, id)) != ""
            && codec.unmarshal(Value(data, Paths.InstanceKey(playbookID, id))).Some? ==>
      r == Success(codec.unmarshal(Value(data, Paths.InstanceKey(playbookID, id))).value)
  {
    Repo.FindByID(data, playbookID, id, codec)
  }

  /** Creating an instance and then showing it by its identifiers gives the
      instance back. */
  lemma CreateThenShow(data: Store, i: Instance, codec: Codec)
    requires Coherent(codec)
    requires codec.marshal(i).Marshalled?
    ensures Show(Create(data, i, codec, None).data, i.playbookID, i.id, codec) == Success(i)
  {
    Repo.SaveThenFind(data, i, codec);
  }

  method AllWithPlaybookID(data: Store, playbookID: string, codec: Codec)
    returns (found: seq<Instance>, err: Option<Error>)
    ensures err.None? || err == Some(MalformedSaveData)
    ensures err.None? <==> forall k :: k in Repo.KeysUnder(data, playbookID) ==> Repo.Decodes(data, k, codec)
    ensures Repo.KeysUnder(data, playbookID) == {} ==> found == [] && err.None?
    ensures err.None? ==> |found| == |Repo.KeysUnder(data, playbookID)|
    ensures err.Some? ==> |found| < |Repo.KeysUnder(data, playbookID)|
    ensures err.None? ==> forall k :: k in Repo.KeysUnder(data, playbookID) ==>
      codec.unmarshal(data[k]).Some? && codec.unmarshal(data[k]).value in found
    ensures forall x :: x in found ==>
      exists k :: k in Repo.KeysUnder(data, playbookID) && codec.unmarshal(data[k]) == Some(x)
  {
    found, err := Repo.FindByPlaybookID(data, playbookID, codec);
  }

  /** After two creates under an otherwise empty playbook, its listing holds
      exactly the two paths, and each decodes to its instance. */
  lemma TwoCreatesListing(data: Store, i1: Instance, i2: Instance, codec: Codec)
    requires Coherent(codec)
    requires codec.marshal(i1).Marshalled? && codec.marshal(i2).Marshalled?
    requires '/' !in i1.playbookID && i1.playbookID == i2.playbookID && i1.id != i2.id
    requires Repo.KeysUnder(data, i1.playbookID) == {}
    ensures var d := Create(Create(data, i1, codec, None).data, i2, codec, None).data;
      && Repo.KeysUnder(d, i1.playbookID) == {Path(i1), Path(i2)}
      && Path(i1) != Path(i2)
      && codec.unmarshal(d[Path(i1)]) == Some(i1)
      && codec.unmarshal(d[Path(i2)]) == Some(i2)
  {
    var d1 := Create(data, i1, codec, None).data;
    var d2 := Create(d1, i2, codec, None).data;
    Repo.SaveListing(data, i1, codec, i1.playbookID);
    Repo.SaveListing(d1, i2, codec, i1.playbookID);
    PathInjective(i1, i2);
    assert d1[Path(i1)] == codec.marshal(i1).text;
    assert d2[Path(i1)] == codec.marshal(i1).text;
    assert d2[Path(i2)] == codec.marshal(i2).text;
  }

  /** Two instances created under an otherwise empty playbook are both
      listed. */
  method CreateTwoThenList(data: Store, i1: Instance, i2: Instance, codec: Codec)
    returns (found: seq<Instance>, err: Option<Error>)
    requires Coherent(codec)
    requires codec.marshal(i1).Marshalled? && codec.marshal(i2).Marshalled?
    requires '/' !in i1.playbookID && i1.playbookID == i2.playbookID && i1.id != i2.id
    requires Repo.KeysUnder(data, i1.playbookID) == {}
    ensures err.None?
    ensures |found| == 2 && i1 in found && i2 in found
  {
    var d2 := Create(Create(data, i1, codec, None).data, i2, codec, None).data;
    var keys := Repo.KeysUnder(d2, i1.playbookID);
    assert keys == {Path(i1), Path(i2)} && Path(i1) != Path(i2)
        && codec.unmarshal(d2[Path(i1)]) == Some(i1)
        && codec.unmarshal(d2[Path(i2)]) == Some(i2) by {
      TwoCreatesListing(data, i1, i2, codec);
    }
    assert forall k :: k in keys ==> Repo.Decodes(d2, k, codec);
    assert |keys| == 2;
    found, err := AllWithPlaybookID(d2, i1.playbookID, codec);
  }
}

=== FILE: instances.dfy ===
/** The instance record of the `instance` package: its status enumeration,
    its storage path and its JSON form. */
module Instances {
  import opened Outcomes
  import Strings
  import Paths

  /** The five status constants. A Go `Status` is a string; the model keeps
      the closed set of named constants. */
  datatype Status = StatusNew | StatusDeploying | StatusDeployed | StatusDeleting | StatusError

  /** The string value each constant stands for. */
  function StatusText(s: Status): string
  {
    match s
    case StatusNew => ""
    case StatusDeploying => "deploying"
    case StatusDeployed => "deployed"
    case StatusDeleting => "deleting"
    case StatusError => "not deployed"
  }

  /** Reads a status string back; only the five constant values are known. */
  function ParseStatus(t: string): (r: Option<Status>)
    ensures r.Some? ==> StatusText(r.value) == t
    ensures r.None? ==> forall s: Status :: StatusText(s) != t
  {
    if t == "" then Some(StatusNew)
    else if t == "deploying" then Some(StatusDeploying)
    else if t == "deployed" then Some(StatusDeployed)
    else if t == "deleting" then Some(StatusDeleting)
    else if t == "not deployed" then Some(StatusError)
    else None
  }

  /** The constants are pairwise distinct, so the text identifies the status;
      the empty string, Go's zero value, is `StatusNew`. */
  lemma StatusTextInjective(s: Status, t: Status)
    ensures StatusText(s) == StatusText(t) <==> s == t
    ensures ParseStatus(StatusText(s)) == Some(s)
    ensures ParseStatus("") == Some(StatusNew)
  {
  }

  datatype Instance = Instance(
    playbookID: string,
    id: string,
    created: string,
    vars: map<string, string>,
    status: Status)

  /** Go's zero-valued `Instance{}`. */
  function Zero(): (i: Instance)
    ensures StatusText(i.status) == ""
    ensures i.playbookID == "" && i.id == "" && i.vars == map[]
  {
    Instance("", "", "", map[], StatusNew)
  }

  /** The key the record is stored under. */
  function Path(i: Instance): (p: string)
    ensures Strings.HasPrefix(p, Paths.PlaybookDir(i.playbookID))
    ensures |p| == |Paths.PlaybookDir(i.playbookID)| + |i.id|
    ensures p[|Paths.PlaybookDir(i.playbookID)|..] == i.id
    ensures '/' !in i.playbookID ==> Paths.ParseInstanceKey(p) == Some((i.playbookID, i.id))
  {
    Paths.KeyInPlaybookDir(i.playbookID, i.id);
    if '/' in i.playbookID then Paths.InstanceKey(i.playbookID, i.id)
    else
      Paths.ParseKeyRoundTrip(i.playbookID, i.id);
      Paths.InstanceKey(i.playbookID, i.id)
  }

  /** The exact format: no normalisation of either identifier. */
  lemma PathFormat(i: Instance)
    ensures Path(i) == "/broadway/instances/" + i.playbookID + "/" + i.id
  {
  }

  /** Two records share a path exactly when they share both identifiers
      (for `/`-free playbook IDs). */
  lemma PathInjective(i: Instance, j: Instance)
    requires '/' !in i.playbookID && '/' !in j.playbookID
    ensures Path(i) == Path(j) <==> i.playbookID == j.playbookID && i.id == j.id
  {
    Paths.KeyInjective(i.playbookID, i.id, j.playbookID, j.id);
  }

  /** The path depends on the identifiers only. */
  lemma PathIgnoresPayload(i: Instance, created: string, vars: map<string, string>, status: Status)
    ensures Path(i.(created := created, vars := vars, status := status)) == Path(i)
  {
  }

  /** The JSON encoder and decoder, left abstract. */
  datatype Codec = Codec(marshal: Instance -> Marshalled, unmarshal: string -> Option<Instance>)

  /** What `encoding/json` guarantees for this record: a successful encoding is
      never the empty string (an object is at least `{}`) and decodes back to
      the record it came from. */
  ghost predicate Coherent(codec: Codec)
  {
    forall i :: codec.marshal(i).Marshalled? ==>
      codec.marshal(i).text != "" && codec.unmarshal(codec.marshal(i).text) == Some(i)
  }

  /** `Instance.JSON`: the encoding with no error, or the empty string with the
      encoder's error. */
  function JSON(i: Instance, codec: Codec): (r: (string, Option<Error>))
    ensures r.1.None? <==> codec.marshal(i).Marshalled?
    ensures r.1.None? ==> r.0 == codec.marshal(i).text
    ensures r.1.Some? ==> r.0 == "" && r.1.value == codec.marshal(i).err
  {
    match codec.marshal(i)
    case MarshalFailed(e) => ("", Some(e))
    case Marshalled(t) => (t, None)
  }

  /** A successful `JSON` is a non-empty text that decodes to the record. */
  lemma JSONRoundTrip(i: Instance, codec: Codec)
    requires Coherent(codec)
    requires JSON(i, codec).1.None?
    ensures JSON(i, codec).0 != ""
    ensures codec.unmarshal(JSON(i, codec).0) == Some(i)
  {
  }
}

=== FILE: keyvalue.dfy ===
/** The key-value store the repositories write to, as a map. A read of a
    missing key yields the empty string, which is the store's "no such key"
    answer; a write either succeeds or fails with the store's error, which is
    a parameter of the model. */
module KeyValue {
  import opened Outcomes

  type Store = map<string, string>

  function Value(data: Store, key: string): (v: string)
    ensures key !in data ==> v == ""
    ensures key in data ==> v == data[key]
  {
    if key in data then data[key] else ""
  }

  /** The store after a write, and the write's error. */
  datatype Written = Written(data: Store, err: Option<Error>)

  /** `SetValue`: a failed write leaves the store as it was; a successful one
      sets exactly `key`, whatever was there before. */
  function SetValue(data: Store, key: string, value: string, fault: Option<Error>): (w: Written)
    ensures w.err == fault
    ensures fault.Some? ==> w.data == data
    ensures fault.None? ==> key in w.data && w.data[key] == value
    ensures fault.None? ==> w.data.Keys == data.Keys + {key}
    ensures forall k :: k != key && k in data ==> w.data[k] == data[k]
  {
    if fault.Some? then Written(data, fault)
    else Written(data[key := value], None)
  }
}

=== FILE: outcomes.dfy ===
/** Failure-carrying values shared by every part of the model: an optional
    value, a value-or-error result, the error kinds the services return, and
    the outcome of the (abstract) JSON encoder. */
module Outcomes {

  datatype Option<+T> = None | Some(value: T)

  /** A Go `(value, error)` pair where exactly one side is meaningful. */
  datatype Result<+T> = Success(value: T) | Failure(error: Error)

  /** The errors the core distinguishes. `External` stands for an error value
      produced by a collaborator this model does not look inside (the JSON
      encoder, the key-value store, the deployment engine); it is passed
      through unchanged. */
  datatype Error =
    | NotFound(path: string)
    | MalformedSaveData
    | InvalidSetVar
    | External(reason: string)

  /** What `json.Marshal` produced: the encoded text, or the error it raised. */
  datatype Marshalled = Marshalled(text: string) | MarshalFailed(err: Error)

  const NotFoundPrefix := "Instance with path: "
  const NotFoundSuffix := " was not found"
  const MalformedText := "Saved data for this instance is malformed"
  const InvalidSetVarText := "That's not the proper syntax. ex: var1=val1"

  /** The text `Error()` returns for each error kind. */
  function ErrorText(e: Error): (t: string)
    ensures e.NotFound? ==> |t| == |NotFoundPrefix| + |e.path| + |NotFoundSuffix|
    ensures e.NotFound? ==> t[|NotFoundPrefix|..|NotFoundPrefix| + |e.path|] == e.path
    ensures e.NotFound? ==> t[..|NotFoundPrefix|] == NotFoundPrefix && t[|t| - |NotFoundSuffix|..] == NotFoundSuffix
    ensures e.InvalidSetVar? ==> t == "That's not the proper syntax. ex: var1=val1"
    ensures e.External? ==> t == e.reason
  {
    match e
    case NotFound(p) => NotFoundPrefix + p + NotFoundSuffix
    case MalformedSaveData => MalformedText
    case InvalidSetVar => InvalidSetVarText
    case External(r) => r
  }

  /** A NotFound message names its path, so two NotFound errors read the same
      only when their paths are equal, and none of them reads like the
      malformed-data error. */
  lemma NotFoundTextDistinct(p: string, q: string)
    ensures ErrorText(NotFound(p)) == ErrorText(NotFound(q)) <==> p == q
    ensures ErrorText(NotFound(p)) != ErrorText(MalformedSaveData)
  {
    if ErrorText(NotFound(p)) == ErrorText(NotFound(q)) {
      var a := ErrorText(NotFound(p));
      assert |p| == |q|;
      assert p == a[|NotFoundPrefix|..|NotFoundPrefix| + |p|];
    }
  }
}

=== FILE: paths.dfy ===
/** The storage-key scheme shared by both revisions of the instance record:
    an instance lives at `/broadway/instances/<playbookID>/<id>`, and the
    instances of one playbook are the keys under
    `/broadway/instances/<playbookID>/`. No separator inside an identifier is
    escaped. */
module Paths {
  import opened Outcomes
  import opened Strings

  const InstancesRoot := "/broadway/instances/"

  function InstanceKey(playbookID: string, id: string): (key: string)
  {
    InstancesRoot + playbookID + "/" + id
  }

  /** The directory whose keys are the instances of one playbook. */
  function PlaybookDir(playbookID: string): (dir: string)
  {
    InstancesRoot + playbookID + "/"
  }

  /** Reads a key back into its identifiers: the playbook ID is the text up to
      the first `/` after the root, the instance ID is everything after it. */
  function ParseInstanceKey(key: string): (r: Option<(string, string)>)
    ensures r.Some? ==> InstanceKey(r.value.0, r.value.1) == key
    ensures r.Some? ==> '/' !in r.value.0
  {
    if !HasPrefix(key, InstancesRoot) then None
    else
      var rest := key[|InstancesRoot|..];
      assert key == InstancesRoot + rest;
      SplitOnFirst(rest, '/')
  }

  /** Every instance key lies in its playbook's directory. */
  lemma KeyInPlaybookDir(playbookID: string, id: string)
    ensures HasPrefix(InstanceKey(playbookID, id), PlaybookDir(playbookID))
    ensures |InstanceKey(playbookID, id)| > |PlaybookDir(playbookID)| || id == ""
  {
    var key := InstanceKey(playbookID, id);
    assert key == PlaybookDir(playbookID) + id;
  }

  /** For a playbook ID without `/` the key reads back to the identifiers it
      was built from. */
  lemma ParseKeyRoundTrip(playbookID: string, id: string)
    requires '/' !in playbookID
    ensures ParseInstanceKey(InstanceKey(playbookID, id)) == Some((playbookID, id))
  {
    var key := InstanceKey(playbookID, id);
    assert HasPrefix(key, InstancesRoot);
    var rest := key[|InstancesRoot|..];
    assert rest == playbookID + ['/'] + id;
    SplitOnFirstJoin(playbookID, '/', id);
  }

  /** With `/`-free playbook IDs, distinct identifier pairs give distinct keys. */
  lemma KeyInjective(p1: string, id1: string, p2: string, id2: string)
    requires '/' !in p1 && '/' !in p2
    ensures InstanceKey(p1, id1) == InstanceKey(p2, id2) <==> p1 == p2 && id1 == id2
  {
    ParseKeyRoundTrip(p1, id1);
    ParseKeyRoundTrip(p2, id2);
  }

  /** Without that restriction the scheme collides: no normalisation is done. */
  lemma KeyCollidesWithSlash()
    ensures InstanceKey("a/b", "c") == InstanceKey("a", "b/c")
  {
  }

  /** A key in the directory of a `/`-free playbook belongs to that playbook,
      so listing the directory never returns another playbook's instances. */
  lemma DirOwnsKey(playbookID: string, key: string)
    requires '/' !in playbookID
    requires HasPrefix(key, PlaybookDir(playbookID))
    ensures ParseInstanceKey(key) == Some((playbookID, key[|PlaybookDir(playbookID)|..]))
  {
    var id := key[|PlaybookDir(playbookID)|..];
    assert key == PlaybookDir(playbookID) + id;
    assert key == InstanceKey(playbookID, id);
    ParseKeyRoundTrip(playbookID, id);
  }

  /** Keys of two different `/`-free playbooks never share a directory. */
  lemma OtherPlaybookNotInDir(playbookID: string, other: string, id: string)
    requires '/' !in playbookID && '/' !in other
    requires other != playbookID
    ensures !HasPrefix(InstanceKey(other, id), PlaybookDir(playbookID))
  {
    if HasPrefix(InstanceKey(other, id), PlaybookDir(playbookID)) {
      DirOwnsKey(playbookID, InstanceKey(other, id));
      ParseKeyRoundTrip(other, id);
    }
  }
}

=== FILE: repositories.dfy ===
/** `InstanceRepo.Save` of the `repositories` package, over the older
    `domain` record: encode, then write the encoding at the record's path. */
module Repositories {
  import opened Outcomes
  import opened KeyValue
  import Domain

  function Save(data: Store, i: Domain.Instance, marshal: Domain.Instance -> Marshalled, fault: Option<Error>): (w: Written)
    // an encoding failure is returned and nothing is written
    ensures marshal(i).MarshalFailed? ==> w.err == Some(marshal(i).err) && w.data == data
    // a store failure is returned unchanged
    ensures marshal(i).Marshalled? ==> w.err == fault
    ensures fault.Some? ==> w.data == data
    // on success exactly the record's key now holds its encoding
    ensures marshal(i).Marshalled? && fault.None? ==>
      w.err.None? && Value(w.data, Domain.Path(i)) == marshal(i).text
      && w.data.Keys == data.Keys + {Domain.Path(i)}
      && forall k :: k in data && k != Domain.Path(i) ==> w.data[k] == data[k]
  {
    var (encoded, err) := Domain.JSON(i, marshal);
    if err.Some? then Written(data, err)
    else SetValue(data, Domain.Path(i), encoded, fault)
  }

  /** Save never reads first: whatever the key held before, two stores that
      agree everywhere else end up identical. */
  lemma SaveOverwrites(d1: Store, d2: Store, i: Domain.Instance, marshal: Domain.Instance -> Marshalled)
    requires d1 - {Domain.Path(i)} == d2 - {Domain.Path(i)}
    requires marshal(i).Marshalled?
    ensures Save(d1, i, marshal, None).data == Save(d2, i, marshal, None).data
  {
    var p := Domain.Path(i);
    var w1 := Save(d1, i, marshal, None).data;
    var w2 := Save(d2, i, marshal, None).data;
    forall k | k in w1
      ensures k in w2 && w1[k] == w2[k]
    {
      if k != p {
        assert k in d1 - {p};
      }
    }
    forall k | k in w2
      ensures k in w1
    {
      if k != p {
        assert k in d2 - {p};
      }
    }
  }
}

=== FILE: server.dfy ===
/** The chat-command side of the HTTP server: the handshake probe, the
    shared-token gate, the command switch and the deploy path. Routing, form
    binding and the JSON bodies of the other endpoints are transport. */
module Server {
  import opened Outcomes
  import opened KeyValue
  import opened Instances
  import Strings
  import Commands
  import Service = InstanceService

  const StatusOK := 200
  const StatusBadRequest := 400
  const StatusUnauthorized := 401
  const StatusInternalServerError := 500
  const StatusNotImplemented := 501

  const Unimplemented := "unimplemented :sadpanda:"
  const DeploymentFailed := "Deployment failed"

  /** The deployment engine, as an oracle: the error it reports, if any. */
  type Deployer = Instance -> Option<Error>

  /** What `doCommand` returns: status code, message, error. */
  datatype Reply = Reply(code: int, message: string, err: Option<Error>)

  /** `doDeploy`: look the instance up, then hand it to the deployment
      engine. A failed lookup is returned without consulting the engine. */
  function DoDeploy(data: Store, codec: Codec, deploy: Deployer, playbookID: string, id: string): (r: Result<Instance>)
    ensures Service.Show(data, playbookID, id, codec).Failure? ==>
      r == Failure(Service.Show(data, playbookID, id, codec).error)
    ensures r.Success? <==>
      Service.Show(data, playbookID, id, codec).Success?
      && deploy(Service.Show(data, playbookID, id, codec).value).None?
    ensures r.Success? ==> r == Service.Show(data, playbookID, id, codec)
    // the engine's error is returned unchanged
    ensures Service.Show(data, playbookID, id, codec).Success?
            && deploy(Service.Show(data, playbookID, id, codec).value).Some? ==>
      r == Failure(deploy(Service.Show(data, playbookID, id, codec).value).value)
  {
    match Service.Show(data, playbookID, id, codec)
    case Failure(e) => Failure(e)
    case Success(i) =>
      match deploy(i)
      case Some(e) => Failure(e)
      case None => Success(i)
  }

  /** When the lookup fails, which deployer is plugged in makes no difference:
      it is never called. */
  lemma DeployerUnusedOnMissing(data: Store, codec: Codec, d1: Deployer, d2: Deployer, playbookID: string, id: string)
    requires Service.Show(data, playbookID, id, codec).Failure?
    ensures DoDeploy(data, codec, d1, playbookID, id) == DoDeploy(data, codec, d2, playbookID, id)
  {
  }

  function DeployedMessage(playbookID: string, id: string): string
  {
    "Instance " + playbookID + "/" + id + " deployed"
  }

  /** `doCommand`: the text is split on single spaces and the first token
      chosen among `help`, `deploy` and everything else. */
  function DoCommand(text: string, data: Store, codec: Codec, deploy: Deployer): (r: Reply)
    ensures r.code in {StatusOK, StatusInternalServerError, StatusNotImplemented}
    ensures r.err.Some? <==> r.code == StatusInternalServerError
    ensures Strings.Split(text, ' ')[0] == "help" ==> r == Reply(StatusOK, Commands.CommandHints, None)
    ensures Strings.Split(text, ' ')[0] !in {"help", "deploy"} ==> r == Reply(StatusNotImplemented, Unimplemented, None)
    ensures Strings.Split(text, ' ')[0] == "deploy" && |Strings.Split(text, ' ')| < 3 ==>
      r == Reply(StatusOK, Commands.CommandHints, None)
  {
    var commands := Strings.Split(text, ' ');
    if |commands| == 0 then Reply(StatusOK, Commands.CommandHints, None)
    else if commands[0] == "help" then Reply(StatusOK, Commands.CommandHints, None)
    else if commands[0] == "deploy" then
      if |commands| < 3 then Reply(StatusOK, Commands.CommandHints, None)
      else match DoDeploy(data, codec, deploy, commands[1], commands[2])
        case Failure(e) => Reply(StatusInternalServerError, DeploymentFailed, Some(e))
        case Success(_) => Reply(StatusOK, DeployedMessage(commands[1], commands[2]), None)
    else Reply(StatusNotImplemented, Unimplemented, None)
  }

  /** An empty text is one empty token, which no case names. */
  lemma EmptyTextUnimplemented(data: Store, codec: Codec, deploy: Deployer)
    ensures DoCommand("", data, codec, deploy) == Reply(StatusNotImplemented, Unimplemented, None)
  {
  }

  /** The server has no setvar: it falls to the default case. */
  lemma SetvarUnimplemented(rest: string, data: Store, codec: Codec, deploy: Deployer)
    ensures DoCommand("setvar " + rest, data, codec, deploy) == Reply(StatusNotImplemented, Unimplemented, None)
  {
    Strings.FirstPiece("setvar", ' ', rest);
    assert "setvar" + [' '] + rest == "setvar " + rest;
  }

  /** `deploy <playbook> <instance> ...` deploys the second and third tokens
      and reports it, or reports the failure with its error; tokens after
      the third are ignored. */
  lemma DeployCommand(tokens: seq<string>, data: Store, codec: Codec, deploy: Deployer)
    requires |tokens| >= 3 && tokens[0] == "deploy"
    requires forall j :: 0 <= j < |tokens| ==> ' ' !in tokens[j]
    ensures var r := DoCommand(Strings.Join(tokens, ' '), data, codec, deploy);
      match DoDeploy(data, codec, deploy, tokens[1], tokens[2])
      case Failure(e) => r == Reply(StatusInternalServerError, DeploymentFailed, Some(e))
      case Success(_) => r == Reply(StatusOK, DeployedMessage(tokens[1], tokens[2]), None)
  {
    Strings.SplitJoin(tokens, ' ');
  }

  /** The plain three-token form: `deploy <playbook> <instance>`. */
  lemma DeployThreeTokens(playbookID: string, id: string, data: Store, codec: Codec, deploy: Deployer)
    requires ' ' !in playbookID && ' ' !in id
    ensures var r := DoCommand("deploy " + playbookID + " " + id, data, codec, deploy);
      match DoDeploy(data, codec, deploy, playbookID, id)
      case Failure(e) => r == Reply(StatusInternalServerError, DeploymentFailed, Some(e))
      case Success(_) => r == Reply(StatusOK, DeployedMessage(playbookID, id), None)
  {
    var tokens := ["deploy", playbookID, id];
    assert Strings.Join(tokens, ' ') == "deploy " + playbookID + " " + id by {
      assert tokens[1..] == [playbookID, id];
      assert [playbookID, id][1..] == [id];
      assert Strings.Join([playbookID, id], ' ') == playbookID + [' '] + id;
      assert Strings.Join(tokens, ' ') == "deploy" + [' '] + (playbookID + [' '] + id);
    }
    DeployCommand(tokens, data, codec, deploy);
  }

  /** `getCommand`: the handshake probe. */
  function GetCommand(sslCheck: string): (r: (int, string))
    ensures r.0 == StatusOK <==> sslCheck == "1"
    ensures r.0 == StatusOK ==> r.1 == ""
    ensures r.0 != StatusOK ==> r == (StatusBadRequest, "Use POST /command")
  {
    if sslCheck == "1" then (StatusOK, "") else (StatusBadRequest, "Use POST /command")
  }

  /** The posted chat-command form. */
  datatype CommandForm = CommandForm(
    token: string, teamID: string, teamDomain: string, channelID: string, channelName: string,
    userID: string, userName: string, command: string, text: string, responseURL: string)

  /** A plain-text answer, or a JSON `{"error": ...}` body. */
  datatype Response = Text(code: int, body: string) | JsonError(code: int, error: string)

  /** `postCommand` after the form is bound: a token other than the
      configured one is refused before any command runs; otherwise the
      command's reply is sent, with its error replaced by the generic
      internal-error body. */
  function PostCommand(form: CommandForm, slackToken: string, data: Store, codec: Codec, deploy: Deployer): (r: Response)
    ensures form.token != slackToken ==> r == JsonError(StatusUnauthorized, "Unauthorized")
    ensures form.token == slackToken ==>
      r.code == DoCommand(form.text, data, codec, deploy).code
      && (r.JsonError? <==> DoCommand(form.text, data, codec, deploy).err.Some?)
    ensures r.Text? ==> r.body == DoCommand(form.text, data, codec, deploy).message
    ensures r.JsonError? && r.code != StatusUnauthorized ==> r.error == "Internal Server Error"
  {
    if form.token != slackToken then JsonError(StatusUnauthorized, "Unauthorized")
    else
      var reply := DoCommand(form.text, data, codec, deploy);
      if reply.err.Some? then JsonError(reply.code, "Internal Server Error")
      else Text(reply.code, reply.message)
  }

  /** A refused token makes the text, the store and the deployer irrelevant. */
  lemma WrongTokenIgnoresCommand(f1: CommandForm, f2: CommandForm, slackToken: string,
                                 d1: Store, d2: Store, codec: Codec, p1: Deployer, p2: Deployer)
    requires f1.token != slackToken && f2.token != slackToken
    ensures PostCommand(f1, slackToken, d1, codec, p1) == PostCommand(f2, slackToken, d2, codec, p2)
  {
  }
}

=== FILE: slack.dfy ===
/** The chat-command handler of `services/slack.go`: the revision whose
    `setvar` also consults the playbooks before accepting a pair. */
module Slack {
  import opened Outcomes
  import opened KeyValue
  import opened Instances
  import opened Commands
  import Strings
  import Service = InstanceService
  import Handler = SlackCommandHandler

  /** A playbook, reduced to the variable names it declares. */
  datatype Playbook = Playbook(vars: seq<string>)

  type Playbooks = map<string, Playbook>

  datatype Command = Help | SetvarCommand(args: seq<string>, playbooks: Playbooks)

  function BuildSlackCommand(payload: string, playbooks: Playbooks): (c: Command)
    ensures c.SetvarCommand? <==> Strings.Split(payload, ' ')[0] == "setvar"
    ensures c.SetvarCommand? ==> Strings.Join(c.args, ' ') == payload && c.playbooks == playbooks
  {
    var terms := Strings.Split(payload, ' ');
    if terms[0] == "setvar" then
      Strings.JoinSplit(payload, ' ');
      SetvarCommand(terms, playbooks)
    else Help
  }

  /** Both revisions build the same kind of command from the same text. */
  lemma BuildAgreesWithHandler(payload: string, playbooks: Playbooks)
    ensures BuildSlackCommand(payload, playbooks).Help? <==> Handler.BuildSlackCommand(payload).Help?
    ensures BuildSlackCommand(payload, playbooks).SetvarCommand? ==>
      BuildSlackCommand(payload, playbooks).args == Handler.BuildSlackCommand(payload).args
  {
  }

  /** Whether some declared name is already a variable, scanning in order. */
  function AnyDefined(declared: seq<string>, vars: map<string, string>): (b: bool)
    ensures b <==> exists j :: 0 <= j < |declared| && declared[j] in vars
  {
    if |declared| == 0 then false
    else if declared[0] in vars then true
    else
      var b := AnyDefined(declared[1..], vars);
      assert b ==> exists j :: 0 <= j < |declared| && declared[j] in vars by {
        if b {
          var j :| 0 <= j < |declared[1..]| && declared[1..][j] in vars;
          assert declared[j + 1] in vars;
        }
      }
      assert (exists j :: 0 <= j < |declared| && declared[j] in vars) ==> b by {
        if exists j :: 0 <= j < |declared| && declared[j] in vars {
          var j :| 0 <= j < |declared| && declared[j] in vars;
          assert j > 0;
          assert declared[1..][j - 1] in vars;
        }
      }
      b
  }

  /** `playbookContainsVars`: the instance's playbook is known and at least
      one of its declared names is already a variable of the instance. Which
      key is about to be set plays no part. */
  function PlaybookContainsVars(playbooks: Playbooks, i: Instance): (b: bool)
    ensures b <==>
      (i.playbookID in playbooks
       && exists j :: 0 <= j < |playbooks[i.playbookID].vars| && playbooks[i.playbookID].vars[j] in i.vars)
  {
    i.playbookID in playbooks && AnyDefined(playbooks[i.playbookID].vars, i.vars)
  }

  /** The pair loop of this revision: a token without `=` fails first; then
      the playbook check, evaluated afresh for every pair; then the key check. */
  function AssignChecked(playbooks: Playbooks, i: Instance, kvs: seq<string>): (r: Assignment)
    ensures r.Assigned? ==> r.vars.Keys == i.vars.Keys
    decreases |kvs|
  {
    if |kvs| == 0 then Assigned(i.vars)
    else match ParsePair(kvs[0])
      case None => Malformed
      case Some((k, v)) =>
        if !PlaybookContainsVars(playbooks, i) then PlaybookLacksVars
        else if k !in i.vars then UndefinedKey
        else AssignChecked(playbooks, i.(vars := i.vars[k := v]), kvs[1..])
  }

  /** Overwriting an existing variable keeps the playbook check's answer, so
      once it passes for the first pair it passes for all of them, and the
      loop is the check-free loop of the other revision. */
  lemma {:induction false} CheckedAgrees(playbooks: Playbooks, i: Instance, kvs: seq<string>)
    requires PlaybookContainsVars(playbooks, i)
    ensures AssignChecked(playbooks, i, kvs) == AssignPairs(i.vars, kvs)
    decreases |kvs|
  {
    if |kvs| > 0 && ParsePair(kvs[0]).Some? {
      var (k, v) := ParsePair(kvs[0]).value;
      if k in i.vars {
        var i' := i.(vars := i.vars[k := v]);
        assert i'.vars.Keys == i.vars.Keys;
        assert PlaybookContainsVars(playbooks, i');
        CheckedAgrees(playbooks, i', kvs[1..]);
      }
    }
  }

  /** When the check fails, no pair is ever applied. */
  lemma CheckedRefuses(playbooks: Playbooks, i: Instance, kvs: seq<string>)
    requires !PlaybookContainsVars(playbooks, i)
    requires |kvs| > 0
    ensures AssignChecked(playbooks, i, kvs) == (if ParsePair(kvs[0]).None? then Malformed else PlaybookLacksVars)
  {
  }

  /** The check does not look at the key: a key the playbook does not declare
      is still accepted when the instance already has it and some other
      declared name is set. */
  lemma UndeclaredKeyAccepted()
    ensures AssignChecked(map["pb" := Playbook(["a"])],
                          Instance("pb", "x", "", map["a" := "1", "b" := "2"], StatusNew),
                          ["b=3"])
         == Assigned(map["a" := "1", "b" := "3"])
  {
    var i := Instance("pb", "x", "", map["a" := "1", "b" := "2"], StatusNew);
    Strings.SplitOnFirstJoin("b", '=', "3");
    assert "b" + ['='] + "3" == "b=3";
    assert ParsePair("b=3") == Some(("b", "3"));
    assert Playbook(["a"]).vars[0] in i.vars;
    assert PlaybookContainsVars(map["pb" := Playbook(["a"])], i);
    var kvs := ["b=3"];
    assert kvs[0] == "b=3" && kvs[1..] == [];
    assert i.vars["b" := "3"] == map["a" := "1", "b" := "3"];
  }

  /** `setvarCommand.Execute` of this revision. */
  function ExecuteSetvar(args: seq<string>, playbooks: Playbooks, data: Store, codec: Codec, fault: Option<Error>): (r: Executed)
    ensures |args| < 4 ==> r == Executed("", Some(InvalidSetVar), data)
    ensures |args| >= 4 && Service.Show(data, args[1], args[2], codec).Failure? ==>
      r == Executed("", Some(Service.Show(data, args[1], args[2], codec).error), data)
    ensures r.data != data ==>
      |args| >= 4 && Service.Show(data, args[1], args[2], codec).Success?
      && PlaybookContainsVars(playbooks, Service.Show(data, args[1], args[2], codec).value)
    ensures r.err.Some? && r.message != "" ==> r.err == Some(InvalidSetVar) && r.data == data
    ensures |args| >= 4 && Service.Show(data, args[1], args[2], codec).Success? ==>
      var i := Service.Show(data, args[1], args[2], codec).value;
      var a := AssignChecked(playbooks, i, args[3..]);
      (a.Assigned? && codec.marshal(i.(vars := a.vars)).MarshalFailed? ==>
         r == Executed("", Some(codec.marshal(i.(vars := a.vars)).err), data))
      && (a.Assigned? && codec.marshal(i.(vars := a.vars)).Marshalled? && fault.Some? ==>
         r == Executed("", fault, data))
  {
    if |args| < 4 then Executed("", Some(InvalidSetVar), data)
    else
      match Service.Show(data, args[1], args[2], codec)
      case Failure(e) => Executed("", Some(e), data)
      case Success(i) =>
        match AssignChecked(playbooks, i, args[3..])
        case Malformed => Executed("", Some(InvalidSetVar), data)
        case PlaybookLacksVars => Executed(PlaybookLacksMessage(i.playbookID), Some(InvalidSetVar), data)
        case UndefinedKey => Executed(InstanceLacksMessage(i.playbookID, i.id), Some(InvalidSetVar), data)
        case Assigned(w) =>
          var saved := Service.Update(data, i.(vars := w), codec, fault);
          if saved.result.Failure? then Executed("", Some(saved.result.error), saved.data)
          else Executed(UpdatedMessage(i.playbookID, i.id), None, saved.data)
  }

  /** With the playbook check passing, this revision behaves exactly like the
      other one. */
  lemma AgreesWithHandler(args: seq<string>, playbooks: Playbooks, data: Store, codec: Codec, fault: Option<Error>)
    requires |args| >= 4 && Service.Show(data, args[1], args[2], codec).Success?
    requires PlaybookContainsVars(playbooks, Service.Show(data, args[1], args[2], codec).value)
    ensures ExecuteSetvar(args, playbooks, data, codec, fault) == Handler.ExecuteSetvar(args, data, codec, fault)
  {
    CheckedAgrees(playbooks, Service.Show(data, args[1], args[2], codec).value, args[3..]);
  }

  /** With the check failing, the first token decides the reply: without `=`
      the syntax refusal with an empty message, otherwise the playbook
      message; either way InvalidSetVar and nothing is persisted. */
  lemma PlaybookRefusal(args: seq<string>, playbooks: Playbooks, data: Store, codec: Codec, fault: Option<Error>)
    requires |args| >= 4 && Service.Show(data, args[1], args[2], codec).Success?
    requires !PlaybookContainsVars(playbooks, Service.Show(data, args[1], args[2], codec).value)
    ensures ExecuteSetvar(args, playbooks, data, codec, fault) ==
      Executed(if ParsePair(args[3]).None? then ""
               else PlaybookLacksMessage(Service.Show(data, args[1], args[2], codec).value.playbookID),
               Some(InvalidSetVar), data)
  {
    assert args[3..][0] == args[3];
    CheckedRefuses(playbooks, Service.Show(data, args[1], args[2], codec).value, args[3..]);
  }

  function Execute(c: Command, data: Store, codec: Codec, fault: Option<Error>): (r: Executed)
    ensures c.Help? ==> r == Executed(CommandHints, None, data)
    ensures r.data != data ==> c.SetvarCommand?
  {
    match c
    case Help => Executed(CommandHints, None, data)
    case SetvarCommand(args, playbooks) => ExecuteSetvar(args, playbooks, data, codec, fault)
  }
}

=== FILE: slack_command_handler.dfy ===
/** The chat-command handler of `services/slack_command_handler.go`: the
    revision whose `setvar` checks each key against the instance's own
    variables only. */
module SlackCommandHandler {
  import opened Outcomes
  import opened KeyValue
  import opened Instances
  import opened Commands
  import Strings
  import Service = InstanceService

  /** The commands this revision builds. */
  datatype Command = Help | SetvarCommand(args: seq<string>)

  /** Splits the text on single spaces; a first token `setvar` selects the
      setvar command with every token, anything else (also an empty text)
      selects help. */
  function BuildSlackCommand(payload: string): (c: Command)
    ensures c.SetvarCommand? <==> Strings.Split(payload, ' ')[0] == "setvar"
    ensures c.SetvarCommand? ==> Strings.Join(c.args, ' ') == payload && |c.args| >= 1
  {
    var terms := Strings.Split(payload, ' ');
    if terms[0] == "setvar" then
      Strings.JoinSplit(payload, ' ');
      SetvarCommand(terms)
    else Help
  }

  /** Space-free tokens joined by spaces come back as the same tokens. */
  lemma BuildFromTokens(tokens: seq<string>)
    requires |tokens| >= 1 && tokens[0] == "setvar"
    requires forall j :: 0 <= j < |tokens| ==> ' ' !in tokens[j]
    ensures BuildSlackCommand(Strings.Join(tokens, ' ')) == SetvarCommand(tokens)
  {
    Strings.SplitJoin(tokens, ' ');
  }

  lemma BuildEmptyIsHelp()
    ensures BuildSlackCommand("") == Help
  {
  }

  /** `setvarCommand.Execute`: `setvar <playbook> <instance> <key=value>...`. */
  function ExecuteSetvar(args: seq<string>, data: Store, codec: Codec, fault: Option<Error>): (r: Executed)
    // too few tokens: refused before any lookup
    ensures |args| < 4 ==> r == Executed("", Some(InvalidSetVar), data)
    // a failed lookup is returned unchanged, before any pair is read
    ensures |args| >= 4 && Service.Show(data, args[1], args[2], codec).Failure? ==>
      r == Executed("", Some(Service.Show(data, args[1], args[2], codec).error), data)
    // the store changes only when every pair was applied
    ensures r.data != data ==>
      |args| >= 4 && Service.Show(data, args[1], args[2], codec).Success?
      && AssignPairs(Service.Show(data, args[1], args[2], codec).value.vars, args[3..]).Assigned?
    // only a refusal carries a message with its error, and a refusal writes nothing
    ensures r.err.Some? && r.message != "" ==> r.err == Some(InvalidSetVar) && r.data == data
    // a failed write of the updated record returns its error unchanged, with
    // an empty message and nothing written
    ensures |args| >= 4 && Service.Show(data, args[1], args[2], codec).Success? ==>
      var i := Service.Show(data, args[1], args[2], codec).value;
      var a := AssignPairs(i.vars, args[3..]);
      (a.Assigned? && codec.marshal(i.(vars := a.vars)).MarshalFailed? ==>
         r == Executed("", Some(codec.marshal(i.(vars := a.vars)).err), data))
      && (a.Assigned? && codec.marshal(i.(vars := a.vars)).Marshalled? && fault.Some? ==>
         r == Executed("", fault, data))
    ensures r.err.None? ==>
      (|args| >= 4 && Service.Show(data, args[1], args[2], codec).Success?
       && r.message == UpdatedMessage(Service.Show(data, args[1], args[2], codec).value.playbookID,
                                      Service.Show(data, args[1], args[2], codec).value.id))
  {
    if |args| < 4 then Executed("", Some(InvalidSetVar), data)
    else
      match Service.Show(data, args[1], args[2], codec)
      case Failure(e) => Executed("", Some(e), data)
      case Success(i) =>
        match AssignPairs(i.vars, args[3..])
        case Malformed => Executed("", Some(InvalidSetVar), data)
        case UndefinedKey => Executed(InstanceLacksMessage(i.playbookID, i.id), Some(InvalidSetVar), data)
        // only the services/slack.go revision's loop yields this; AssignPairs never does
        case PlaybookLacksVars => Executed("", Some(InvalidSetVar), data)
        case Assigned(w) =>
          var saved := Service.Update(data, i.(vars := w), codec, fault);
          if saved.result.Failure? then Executed("", Some(saved.result.error), saved.data)
          else Executed(UpdatedMessage(i.playbookID, i.id), None, saved.data)
  }

  /** The instance `setvar` found at its arguments' path. */
  ghost predicate Found(args: seq<string>, data: Store, codec: Codec, i: Instance)
  {
    |args| >= 4 && Service.Show(data, args[1], args[2], codec) == Success(i)
  }

  /** A token that is not a defined `key=value` pair refuses the whole
      command: the store is untouched and the error is InvalidSetVar, with
      the "does not define" message when the first bad token is a well-formed
      pair. */
  lemma SetvarRefusal(args: seq<string>, data: Store, codec: Codec, fault: Option<Error>, i: Instance, j: int)
    requires Found(args, data, codec, i)
    requires 3 <= j < |args| && !Assignable(i.vars, args[j])
    ensures ExecuteSetvar(args, data, codec, fault).data == data
    ensures ExecuteSetvar(args, data, codec, fault).err == Some(InvalidSetVar)
    ensures AssignPairs(i.vars, args[3..]).UndefinedKey? ==>
      ExecuteSetvar(args, data, codec, fault).message == InstanceLacksMessage(i.playbookID, i.id)
    ensures AssignPairs(i.vars, args[3..]).Malformed? ==>
      ExecuteSetvar(args, data, codec, fault).message == ""
  {
    assert args[3..][j - 3] == args[j];
  }

  /** The first token that is not a defined pair decides the reply: without
      `=` the message is empty, with an undefined key it is the "does not
      define" message; either way the error is InvalidSetVar and nothing is
      written. */
  lemma SetvarFirstBadToken(args: seq<string>, data: Store, codec: Codec, fault: Option<Error>, i: Instance, m: int)
    requires Found(args, data, codec, i)
    requires 3 <= m < |args|
    requires forall j :: 3 <= j < m ==> Assignable(i.vars, args[j])
    requires !Assignable(i.vars, args[m])
    ensures ExecuteSetvar(args, data, codec, fault) ==
      Executed(if ParsePair(args[m]).None? then "" else InstanceLacksMessage(i.playbookID, i.id),
               Some(InvalidSetVar), data)
  {
    var kvs := args[3..];
    assert forall j :: 0 <= j < m - 3 ==> kvs[j] == args[j + 3];
    assert kvs[m - 3] == args[m];
    FirstBadToken(i.vars, kvs, m - 3);
  }

  /** When every pair names a defined key and the store accepts the write,
      the command succeeds: the instance is saved with each variable holding
      the last value given for it, no variable added, and the success message
      names the instance. */
  lemma SetvarSuccess(args: seq<string>, data: Store, codec: Codec, i: Instance)
    requires Coherent(codec)
    requires Found(args, data, codec, i)
    requires forall j :: 3 <= j < |args| ==> Assignable(i.vars, args[j])
    requires codec.marshal(i.(vars := AssignPairs(i.vars, args[3..]).vars)).Marshalled?
    ensures var r := ExecuteSetvar(args, data, codec, None);
      var w := AssignPairs(i.vars, args[3..]).vars;
      && r.err.None?
      && r.message == UpdatedMessage(i.playbookID, i.id)
      && Service.Show(r.data, i.playbookID, i.id, codec) == Success(i.(vars := w))
      && r.data == data[Path(i.(vars := w)) := codec.marshal(i.(vars := w)).text]
      && w.Keys == i.vars.Keys
      && forall k :: k in w ==> w[k] == LastValue(args[3..], k, i.vars[k])
  {
    var kvs := args[3..];
    assert forall j :: 0 <= j < |kvs| ==> Assignable(i.vars, kvs[j]) by {
      forall j | 0 <= j < |kvs| ensures Assignable(i.vars, kvs[j]) {
        assert kvs[j] == args[j + 3];
      }
    }
    var w := AssignPairs(i.vars, kvs).vars;
    AssignPairsValues(i.vars, kvs);
    Service.CreateThenShow(data, i.(vars := w), codec);
  }

  /** `Execute` of whichever command was built: help always answers with the
      hint and changes nothing. */
  function Execute(c: Command, data: Store, codec: Codec, fault: Option<Error>): (r: Executed)
    ensures c.Help? ==> r == Executed(CommandHints, None, data)
    ensures r.data != data ==> c.SetvarCommand?
  {
    match c
    case Help => Executed(CommandHints, None, data)
    case SetvarCommand(args) => ExecuteSetvar(args, data, codec, fault)
  }
}

=== FILE: slack_deployment_notifier.dfy ===
/** `SlackDeploymentNotifier`: the confirmation message sent after a deploy
    requested from chat. */
module SlackDeploymentNotifier {
  import opened Outcomes
  import Strings

  datatype SlackPayload = SlackPayload(
    token: string, teamID: string, teamDomain: string, channelID: string, channelName: string,
    userID: string, userName: string, command: string, text: string, responseURL: string)

  /** The command field holds at least four space-separated tokens; Go indexes
      the third and fourth without checking. */
  predicate HasInstanceInfo(sp: SlackPayload)
  {
    |Strings.Split(sp.command, ' ')| >= 4
  }

  /** The third and fourth tokens of the command field (not of the text
      field) name the playbook and the instance. */
  function InstanceInfoFromCommand(sp: SlackPayload): (r: (string, string))
    requires HasInstanceInfo(sp)
    ensures ' ' !in r.0 && ' ' !in r.1
  {
    var parsed := Strings.Split(sp.command, ' ');
    (parsed[2], parsed[3])
  }

  /** Space-free tokens are read back from the command they were joined
      into, whatever the text field holds. */
  lemma InstanceInfoFromTokens(sp: SlackPayload, tokens: seq<string>)
    requires |tokens| >= 4
    requires forall j :: 0 <= j < |tokens| ==> ' ' !in tokens[j]
    requires sp.command == Strings.Join(tokens, ' ')
    ensures HasInstanceInfo(sp)
    ensures InstanceInfoFromCommand(sp) == (tokens[2], tokens[3])
  {
    Strings.SplitJoin(tokens, ' ');
  }

  /** `Notify`: "<playbook> <instance> <user> was deployed", never an error. */
  function Notify(sp: SlackPayload): (r: (string, Option<Error>))
    requires HasInstanceInfo(sp)
    ensures r.1.None?
    ensures Strings.HasPrefix(r.0, InstanceInfoFromCommand(sp).0 + " " + InstanceInfoFromCommand(sp).1 + " ")
    ensures |r.0| == |InstanceInfoFromCommand(sp).0| + |InstanceInfoFromCommand(sp).1| + |sp.userName| + 15
    ensures r.0[|r.0| - |sp.userName| - 13..] == sp.userName + " was deployed"
  {
    var (playbookID, id) := InstanceInfoFromCommand(sp);
    (playbookID + " " + id + " " + sp.userName + " was deployed", None)
  }

  /** The message reads only the command field and the user name. */
  lemma NotifyIgnoresText(sp: SlackPayload, text: string, token: string)
    requires HasInstanceInfo(sp)
    ensures Notify(sp.(text := text, token := token)) == Notify(sp)
  {
  }
}

=== FILE: slack_notification.dfy ===
/** `SlackNotification`: a one-line status report of an instance, prefixed
    with the name of the user who issued the command. */
module SlackNotification {
  import Strings
  import opened Instances

  datatype Notification = Notification(commandOwner: string, instance: Instance)

  function NewSlackNotification(i: Instance, owner: string): (n: Notification)
    ensures n.instance == i && n.commandOwner == owner
  {
    Notification(owner, i)
  }

  /** `<owner>: <playbookID>-<id> <status>`, the status in its raw string
      form. */
  function String(n: Notification): (s: string)
    ensures Strings.HasPrefix(s, n.commandOwner + ": " + n.instance.playbookID + "-" + n.instance.id + " ")
    ensures |s| == |n.commandOwner| + |n.instance.playbookID| + |n.instance.id| + |StatusText(n.instance.status)| + 4
    ensures s[|s| - |StatusText(n.instance.status)|..] == StatusText(n.instance.status)
  {
    n.commandOwner + ": " + n.instance.playbookID + "-" + n.instance.id + " " + StatusText(n.instance.status)
  }

  /** The rendering reads nothing but the owner, the identifiers and the
      status. */
  lemma StringIgnoresPayload(n: Notification, created: string, vars: map<string, string>)
    ensures String(n.(instance := n.instance.(created := created, vars := vars))) == String(n)
  {
  }

  lemma DeployedExample()
    ensures String(NewSlackNotification(Instance("mine", "pr001", "", map[], StatusDeployed), "Steve"))
         == "Steve: mine-pr001 deployed"
  {
  }

  /** The error status renders as its constant, "not deployed". */
  lemma ErrorExample()
    ensures String(NewSlackNotification(Instance("mine", "pr001", "", map[], StatusError), "Bob"))
         == "Bob: mine-pr001 not deployed"
  {
  }

  /** A new instance's status is the empty string, so the line ends in the
      separating space. */
  lemma NewEndsInSpace(n: Notification)
    requires n.instance.status == StatusNew
    ensures String(n)[|String(n)| - 1] == ' '
  {
  }
}

=== FILE: strings.dfy ===
/** The two string operations of Go's `strings` package the core relies on,
    specialised to a one-character separator: `strings.Split(s, sep)` and
    `strings.SplitN(s, sep, 2)`. */
module Strings {
  import opened Outcomes

  predicate HasPrefix(s: string, p: string) {
    |p| <= |s| && s[..|p|] == p
  }

  /** Position of the first occurrence of `c` in `s`. */
  function IndexOf(s: string, c: char): (k: nat)
    requires c in s
    ensures k < |s| && s[k] == c
    ensures c !in s[..k]
  {
    if s[0] == c then 0
    else
      assert s == [s[0]] + s[1..];
      var k := 1 + IndexOf(s[1..], c);
      assert s[..k] == [s[0]] + s[1..][..k - 1];
      k
  }

  lemma IndexOfAfterFree(a: string, c: char, b: string)
    requires c !in a
    ensures c in a + [c] + b
    ensures IndexOf(a + [c] + b, c) == |a|
  {
    var s := a + [c] + b;
    assert s[|a|] == c;
  }

  /** `strings.Split` with a one-character separator: the pieces between
      consecutive separators, in order. The empty string yields one empty
      piece, never an empty sequence. */
  function Split(s: string, sep: char): (parts: seq<string>)
    ensures |parts| >= 1
    ensures forall j :: 0 <= j < |parts| ==> sep !in parts[j]
    decreases |s|
  {
    if sep !in s then [s]
    else
      var k := IndexOf(s, sep);
      [s[..k]] + Split(s[k + 1..], sep)
  }

  /** The words joined by the separator (Go's `strings.Join`), the inverse of `Split`. */
  function Join(parts: seq<string>, sep: char): (r: string)
    ensures |parts| >= 1 ==> HasPrefix(r, parts[0])
    ensures |parts| >= 2 ==> |r| > |parts[0]| && r[|parts[0]|] == sep
  {
    if |parts| == 0 then ""
    else if |parts| == 1 then parts[0]
    else parts[0] + [sep] + Join(parts[1..], sep)
  }

  lemma {:induction false} JoinSplit(s: string, sep: char)
    ensures Join(Split(s, sep), sep) == s
    decreases |s|
  {
    if sep in s {
      var k := IndexOf(s, sep);
      var rest := s[k + 1..];
      JoinSplit(rest, sep);
      var parts := Split(s, sep);
      assert parts[1..] == Split(rest, sep);
      assert s == s[..k] + [sep] + rest;
    }
  }

  /** A separator-free word followed by the separator splits off as the
      first piece. */
  lemma SplitCons(word: string, sep: char, rest: string)
    requires sep !in word
    ensures Split(word + [sep] + rest, sep) == [word] + Split(rest, sep)
  {
    var s := word + [sep] + rest;
    IndexOfAfterFree(word, sep, rest);
    assert s[..|word|] == word;
    assert s[|word| + 1..] == rest;
  }

  lemma {:induction false} SplitJoin(parts: seq<string>, sep: char)
    requires |parts| >= 1
    requires forall j :: 0 <= j < |parts| ==> sep !in parts[j]
    ensures Split(Join(parts, sep), sep) == parts
  {
    if |parts| > 1 {
      var rest := Join(parts[1..], sep);
      assert Join(parts, sep) == parts[0] + [sep] + rest;
      SplitCons(parts[0], sep, rest);
      SplitJoin(parts[1..], sep);
      assert parts == [parts[0]] + parts[1..];
    }
  }

  /** The first piece of `Split` is everything before the first separator. */
  lemma FirstPiece(word: string, sep: char, rest: string)
    requires sep !in word
    ensures Split(word + [sep] + rest, sep)[0] == word
  {
    SplitCons(word, sep, rest);
  }

  /** `strings.SplitN(s, sep, 2)` read as Go's `len(parts) == 2` test:
      `None` when `sep` does not occur, otherwise the text before the first
      `sep` and everything after it (later separators stay in the second half). */
  function SplitOnFirst(s: string, sep: char): (r: Option<(string, string)>)
    ensures r.None? <==> sep !in s
    ensures r.Some? ==> sep !in r.value.0 && r.value.0 + [sep] + r.value.1 == s
  {
    if sep !in s then None
    else
      var k := IndexOf(s, sep);
      assert s == s[..k] + [sep] + s[k + 1..];
      Some((s[..k], s[k + 1..]))
  }

  /** Splitting on the first separator recovers any key that has none. */
  lemma SplitOnFirstJoin(key: string, sep: char, value: string)
    requires sep !in key
    ensures SplitOnFirst(key + [sep] + value, sep) == Some((key, value))
  {
    var s := key + [sep] + value;
    IndexOfAfterFree(key, sep, value);
    assert s[..|key|] == key;
    assert s[|key| + 1..] == value;
  }
}
